=== FILE: README.md ===
# link-pool: the connection pool's bookkeeping, in Dafny

This project models the core of link-pool, a per-process pool of PDO
connections for Swoole coroutines. It covers two things:

- the abstract pool (`ConnectionPool`): the live counter `count`, the
  bounded free channel (capacity `maxSize + 1`), and the `pools` map from a
  handle's object hash to its latest record; with `init`, `length`, `get`,
  `put` and the protected `push`;
- the database provider (`PdoPool`): `make`, which counts a connection before
  building it and rolls the count back on failure; `getThreadInfo`, which finds
  the connection's server session in the process list; and the sweep that
  `handleSpare` runs on a timer. The sweep drains the channel and kicks records
  whose session is gone, moved or idle too long. It pushes the rest back,
  forgets the kicked ones and refills to the floor with `init`.

Everything runs in one sequential context. Each operation is a pure function
from a `Pool` value to an outcome that records the state it leaves behind,
whether it returns or raises. The I/O is supplied as data:

- the result of each call of the construction closure (with its two
  introspection queries) is a `Construction` value;
- the process list is a sequence of rows;
- the clock is an integer `now`;
- `crc32` is a function parameter `string -> int` about which nothing is
  assumed;
- `spl_object_hash` is a handle's object id.

Modules:

| module | file | models |
|---|---|---|
| `Wrappers` | wrappers.dfy | null / absent keys (`Option`), error returns (`Result`) |
| `Records` | records.dfy | handles, records (PHP arrays with optional keys), process-list rows, construction results |
| `PhpText` | php_text.dfy | PHP `explode`, `implode` and `empty()` on strings |
| `SlotQueue` | slot_queue.dfy | the bounded FIFO channel |
| `PoolState` | pool_state.dfy | the pool state, the constructor, the invariant `Valid` and the checked-out count `Outstanding` |
| `Provider` | provider.dfy | `make` and `getThreadInfo` of src/Database/PdoPool.php |
| `ConnectionPool` | connection_pool.dfy | `length`, `push`, `get`, `put`, `init` of src/ConnectionPool.php |
| `Sweeper` | sweeper.dfy | the `handleSpare` sweep of src/Database/PdoPool.php |
| `PoolTheorems` | pool_theorems.dfy | properties that span several operations |

`PdoPool.php` is split into `Provider` and `Sweeper` because `get` and
`init` call `make`, and the sweep calls `init`.

A few choices shape the model:

- PHP records are arrays whose keys may be missing. `put` on a handle with
  no record builds an array with only `resource`, `use_time` and `make_time`,
  and the sweep writes `['kick' => ...]` under a hash it has no entry for. So
  every key of `Item` is an `Option`.
- A null hash is used as the key `""` in PHP. Here it is the key `None`,
  which no object hash can equal.
- A null value is compared as 0, matching PHP's comparison of null with
  an integer in `make_time <= 0` and `use_time >= 1`.

Two consequences of the code as written are proved. The floor `minSize` is
fixed at 15, but the ceiling is whatever size the constructor receives:

- with size 14, a successful `init` leaves 15 handles live, above maxSize
  (`PoolTheorems.FloorAboveCeilingOvershoots`);
- with size 13 or less, the channel holds at most 14 records, so `init` can
  never reach 15 and never returns normally
  (`PoolTheorems.SmallPoolNeverFills`).

The capacity invariant `count <= maxSize` is proved for pools whose floor
is at or below the ceiling (`PoolTheorems.CeilingKept`).

Three behaviours of the code worth knowing:

- A `put` whose push fails leaves the `pools` map untouched. It does not
  remove the handle's entry.
- `get` and `length` without a channel raise `'channel fail'`.
- `put` without a channel decrements `count` and then raises when it reads
  the length.

Putting back the null that a timed-out `get` returns also decrements `count`
under PHP 8 and later: there `spl_object_hash(null)` raises a TypeError in
the guarded block of `put` before anything is pushed, and the `catch` then
runs only the decrement. `count` then undercounts the handles made and not
discarded, so from maxSize the next `get` makes one extra handle
(`PoolTheorems.TimedOutPutLosesCount`).

## Model

| member | source | states |
|---|---|---|
| PoolState.Create | src/ConnectionPool.php:27-80 | a new pool has maxSize = size (35 by default), a channel of capacity size + 1, the fixed floor 15, count 0, and satisfies the pool invariant |
| ConnectionPool.Length | src/ConnectionPool.php:103-110 | 'channel fail' exactly when there is no channel, otherwise the number of free records |
| ConnectionPool.Push | src/ConnectionPool.php:179-192 | a push that fits appends the record and sets pools[hash]; a refused push changes nothing but giving back one count when increment is set; with increment it always lowers the checked-out count by one |
| ConnectionPool.Get | src/ConnectionPool.php:119-137 | makes a handle only when the channel is empty and count < maxSize, so count rises by at most one and never from maxSize; a non-empty channel hands out the head record's handle and removes exactly that record; on an empty channel below maxSize get returns exactly when the construction succeeds, and then hands out the new handle, with count one higher and the new record stored under its hash; a make failure propagates with the pool unchanged; an exhausted pool returns null and changes nothing; one more handle is checked out per non-null result |
| ConnectionPool.PopResource | src/ConnectionPool.php:134-136 | the popped record's handle, or null with nothing removed when the channel is empty |
| ConnectionPool.Refreshed | src/ConnectionPool.php:155-161 | the stored record is the old one (or an empty one) with the handle, use_time = now and the old make_time (0 if none), every other key kept |
| ConnectionPool.Put | src/ConnectionPool.php:146-171 | a fitting push enqueues the refreshed record and stores it under the handle's hash; a refused push, or a null handle whose hashing raises (PHP 8), lowers count by exactly one and leaves queue and map alone; either way the result is the channel length and one fewer handle is checked out |
| ConnectionPool.Init | src/ConnectionPool.php:87-95 | returns only with count >= minSize; does nothing when count >= minSize already; never lowers count nor raises it past the floor; keeps the checked-out count; only appends to the channel; a raise carries a construction failure, never happens when every construction succeeds, and a failed first construction below the floor raises make's error with the pool unchanged |
| PoolTheorems.InitFills | src/ConnectionPool.php:87-95 | when the channel has room for the floor and the constructions init calls (the first minSize - count) succeed, init returns with count exactly at the floor (or unchanged if already there), one more free record per handle made, whatever later entries would do |
| PoolTheorems.InitRaisesFirstFailure | src/ConnectionPool.php:87-95 | a raising init raised the error of the first failing construction, all earlier ones having succeeded |
| PoolTheorems.DefaultPoolFills | src/ConnectionPool.php:27-95 | a pool with the default size 35, given 15 successful constructions, completes init with count 15 <= maxSize |
| PoolTheorems.SweepRefills | src/Database/PdoPool.php:142-222 | on a valid pool with room for the floor, a sweep whose first minSize constructions succeed returns with count at least the floor |
| PoolTheorems.TimedOutPutLosesCount | src/ConnectionPool.php:119-171 | a get on an exhausted pool returns null; putting that null back lowers count by one with the channel unchanged, so one fewer handle counts as checked out than before; from exactly maxSize the next get then makes and hands out a new handle, count back at maxSize |
| PoolTheorems.InitIdempotent | src/ConnectionPool.php:87-95 | a second init after a successful one returns at once with the same pool |
| PoolTheorems.InitNeverFillsSmallChannel | src/ConnectionPool.php:79-92 | when queued-plus-checked-out capacity is below the floor, init never returns normally |
| PoolTheorems.SmallPoolNeverFills | src/ConnectionPool.php:32-92 | a pool constructed with size 13 or less never completes init |
| PoolTheorems.FloorAboveCeilingOvershoots | src/ConnectionPool.php:32-92 | when the floor exceeds maxSize, a completed init leaves more than maxSize handles live |
| PoolTheorems.CeilingKept | src/ConnectionPool.php:87-171 | with floor <= ceiling, get, put, init and a sweep never take count above maxSize |
| PoolTheorems.FirstGetMakes | src/ConnectionPool.php:119-137 | the first get on a new pool makes one handle, records it and hands it out |
| PoolTheorems.ExhaustedGetTimesOut | src/ConnectionPool.php:126-136 | with an empty channel and count at maxSize, get returns null and changes nothing |
| PoolTheorems.PutReturnsLength | src/ConnectionPool.php:170 | put's result, for any handle or null, equals length right after it |
| PoolTheorems.PutThenGet | src/ConnectionPool.php:146-171 | a handle put onto an empty channel is what the next get returns, and its record carries the put time |
| PoolTheorems.NoDoubleIssue | src/ConnectionPool.php:119-137 | when free records carry distinct handles, the handle get returns is left in no free record, and the rest stay distinct |
| PoolTheorems.GetThenPutRotates | src/ConnectionPool.php:119-171 | get then put of the handle it returned moves the head record to the tail with use_time refreshed, count unchanged |
| SlotQueue.PushAll | src/Database/PdoPool.php:206-209 | pushing records one by one succeeds and appends them all exactly when they fit in the capacity |
| SlotQueue.PopAfterPush | src/ConnectionPool.php:129-134 | the channel is FIFO: the pop after a push yields the pushed record when the channel was empty, and the old head otherwise |
| Provider.Make | src/Database/PdoPool.php:31-69 | success raises count by one and yields a record with the handle, its hash, use_time 0, the make time, the session id, the looked-up endpoint and kick = false; failure leaves count unchanged and re-raises the message ('make pdo fail' for a non-PDO) |
| Provider.GetThreadInfo | src/Database/PdoPool.php:92-114 | empty exactly when no row has the session id; otherwise the endpoint of the first such row |
| Provider.EndpointOf | src/Database/PdoPool.php:103-108 | the checksum is that of the whole host; ip is the piece before the first ':' and port the whole piece after it, up to the next ':' or the end (no port without a ':') |
| PhpText.Explode | src/Database/PdoPool.php:103 | pieces are separator-free and join back to the string |
| PhpText.ExplodeImplode | src/Database/PdoPool.php:103 | exploding the join of separator-free pieces gives the pieces back |
| Sweeper.SessionTable | src/Database/PdoPool.php:148-152 | the table's keys are exactly the process-list Ids |
| Sweeper.SessionTableLastWins | src/Database/PdoPool.php:148-152 | an Id that repeats maps to the host of the last row carrying it |
| Sweeper.SessionGoneKicks | src/Database/PdoPool.php:164-168 | a record whose session is not listed, or listed with an empty host, is kicked whatever its timestamps |
| Sweeper.EndpointChangeKicks | src/Database/PdoPool.php:169-174 | a record whose listed host has a checksum other than the stored one is kicked whatever its timestamps |
| Sweeper.UnmadeKicks | src/Database/PdoPool.php:176-178 | a record with make_time <= 0 is kicked |
| Sweeper.UsedIdleLimit | src/Database/PdoPool.php:182-185 | a used record passing the earlier checks is kicked exactly when idle more than 300 s |
| Sweeper.UnusedIdleLimit | src/Database/PdoPool.php:186-190 | a never-used record passing the earlier checks is kicked exactly when made more than 600 s ago |
| Sweeper.HostOf | src/Database/PdoPool.php:164 | the listed host for a known session id, and the empty string whenever the id is missing or not listed |
| Sweeper.ShouldKick | src/Database/PdoPool.php:164-193 | the ordered kick rule holds exactly when the record is stale: session gone or moved, no positive make_time, or idle past 300 s (used) or 600 s (never used) |
| Sweeper.Classify | src/Database/PdoPool.php:155-202 | the drained records are split into a kick list and an active list whose lengths add up, every record of the first kicked by the rule and none of the second |
| Sweeper.ClassifyPermutes | src/Database/PdoPool.php:155-202 | the two lists together are a permutation of the drained records |
| Sweeper.ClassifyMembers | src/Database/PdoPool.php:155-202 | every drained record is in one of the lists and each list holds only drained records |
| Sweeper.Mark | src/Database/PdoPool.php:194 | marking adds entries for the drained keys only and leaves other entries alone |
| Sweeper.MarkFlagsKept | src/Database/PdoPool.php:194 | a key carried only by kept records ends with its old entry flagged kick = false, however often it was marked |
| Sweeper.Evict | src/Database/PdoPool.php:213-217 | count drops by the number of kicked records and their keys are removed |
| Sweeper.Pass | src/Database/PdoPool.php:155-217 | without a channel the pass raises; a completed pass leaves the channel holding the active records, count lowered by the number kicked, and the marked map minus the kicked keys |
| Sweeper.PassKeepsValid | src/Database/PdoPool.php:155-217 | on a valid pool a pass always completes, keeps the pool invariant and leaves the checked-out count unchanged |
| Sweeper.PassPartitions | src/Database/PdoPool.php:155-217 | every drained record is kicked or kept by the rule, kept ones are back in the channel, count drops by one per kick |
| Sweeper.PassForgetsKicked | src/Database/PdoPool.php:213-217 | no kicked record's key remains in the pools map |
| Sweeper.PassFlagsKept | src/Database/PdoPool.php:194 | a key carried only by kept records keeps its entry with kick = false |
| Sweeper.PassLeavesOthers | src/Database/PdoPool.php:155-217 | entries of keys no drained record carries are unchanged |
| Sweeper.Sweep | src/Database/PdoPool.php:142-222 | if the sweep returns normally count is at least the floor; the pool invariant and checked-out count are kept; with floor <= ceiling count stays within maxSize |
| Sweeper.SweepEvicts | src/Database/PdoPool.php:155-222 | the records the rule keeps lead the final channel in drain order, and count fell once per kicked record before init added one per record it appended |
| Sweeper.LookupsAgree | src/Database/PdoPool.php:92-114 | with duplicate-free Ids, make's first-match lookup and the sweep's session table give the same endpoint for a listed session |
| Sweeper.MadeRecordSessionAlive | src/Database/PdoPool.php:92-174 | a record made from a duplicate-free process list listing its session passes both session checks against that same list |
| Sweeper.FreshRecordKept | src/Database/PdoPool.php:31-193 | such a record, made at a positive time and swept unused within 600 s, is kept |

## Left out

- Swoole channel blocking and timeouts: a pop on an empty channel returns nothing at once, and a push on a full channel is refused. The refusal is modelled as the exception the `catch` blocks in `push` and `put` handle. The library's own behaviour on a full channel (blocking, or returning false) is not modelled.
- Concurrency between coroutines: everything runs in one sequential context, so no other task can push or pop between a sweep's drain and its re-enqueue.
- `Timer::tick` scheduling in `handleSpare`: only the body of one tick is modelled (`Sweeper.Sweep`).
- The sweep's introspection connection and its `select('show full processlist')`: the process list is an input, and a failure of that query is not modelled. Closing that connection (`$pdo = null`) is not modelled either.
- `getThreadID` and the process-list query inside `make`: their results (or a failure) are part of the `Construction` input.
- `connected()`: a PDO attribute probe that no modelled operation calls.
- `crc32`, `spl_object_hash`, `getmypid`: a function parameter, an object id, and an input.
- `microtime(true)` floats: time is an integer, and one `now` serves a whole operation.
- The unused `$current` field and the `$timeout` argument of `get`: the timeout only bounds a blocking wait.
- Negative sizes: the constructor takes a `nat`, since a channel of non-positive capacity is a library matter.
- Type juggling: process-list Ids are integers compared with `===` against the integer session id. A driver that returns Ids as strings would make that comparison always fail, and the model does not cover this.
- ConnectionPool.Put: a null handle is modelled as PHP 8 treats it (the hashing raises, so only the decrement runs). Under PHP 7 `spl_object_hash(null)` only warns and returns null; put would then push a record with a null resource, store it under the `""` key and leave `count` alone. That behaviour is not modelled.
- The construction results that `init` consumes form a finite list. When the list runs out with count still below the floor, the result is `Unfinished`, a value the source has no counterpart for. It stands for "init has not returned yet".

=== FILE: connection_pool.dfy ===
/** The abstract pool's operations: length, the protected push, get, put and
    init, with make resolved to the database provider's. */
module ConnectionPool {
  import opened Wrappers
  import opened Records
  import opened SlotQueue
  import opened PoolState
  import Provider

  /** length: the number of free records, or 'channel fail' without a channel. */
  function Length(p: Pool): (r: Result<nat, Error>)
    ensures p.channel.None? <==> r == Failure(ChannelFail)
    ensures p.channel.Some? ==> r == Success(|Queue(p)|)
  {
    if p.channel.None? then Failure(ChannelFail) else Success(|p.channel.value.items|)
  }

  /** push: enqueue a record and remember it under its hash; a failed enqueue
      (full or missing channel) is caught and, when `increment` is set, gives
      back the count the record's make took. */
  function Push(p: Pool, item: Item, increment: bool): (q: Pool)
    ensures q.minSize == p.minSize && q.maxSize == p.maxSize
    ensures q.channel.Some? <==> p.channel.Some?
    ensures q.channel.Some? ==> q.channel.value.capacity == p.channel.value.capacity
    ensures p.channel.Some? && !p.channel.value.IsFull() ==>
              && Queue(q) == Queue(p) + [item]
              && q.pools == p.pools[item.hash := item]
              && q.count == p.count
    ensures (p.channel.None? || p.channel.value.IsFull()) ==>
              q == p.(count := if increment then p.count - 1 else p.count)
    ensures Valid(p) && Complete(item) ==> Valid(q)
    ensures Valid(p) && increment ==> Outstanding(q) == Outstanding(p) - 1
  {
    var dropped := p.(count := if increment then p.count - 1 else p.count);
    if p.channel.None? then dropped
    else
      match p.channel.value.Push(item)
      case None => dropped
      case Some(c) => p.(channel := Some(c), pools := p.pools[item.hash := item])
  }

  /** The pop at the end of get: the head record's handle, or null once the
      wait runs out on an empty channel. */
  function PopResource(p: Pool): (o: Outcome<Option<Resource>>)
    requires p.channel.Some?
    ensures o.Returned? && o.pool == p.(channel := o.pool.channel)
    ensures o.pool.channel.Some? && o.pool.channel.value.capacity == p.channel.value.capacity
    ensures Queue(p) == [] ==> o.value.None? && o.pool == p
    ensures Queue(p) != [] ==> o.value == Queue(p)[0].resource && Queue(o.pool) == Queue(p)[1..]
  {
    var (x, rest) := p.channel.value.Pop();
    Returned(p.(channel := Some(rest)), if x.Some? then x.value.resource else None)
  }

  /** get: when the channel is empty and fewer than maxSize handles are live,
      make one (a failure propagates) and push it; then pop. */
  function Get(p: Pool, build: Construction, crc32: string -> int): (o: Outcome<Option<Resource>>)
    ensures p.channel.None? ==> o == Threw(p, ChannelFail)
    ensures o.pool.minSize == p.minSize && o.pool.maxSize == p.maxSize
    ensures o.pool.count == p.count
            || (&& o.pool.count == p.count + 1
                && p.channel.Some? && p.channel.value.IsEmpty() && p.count < p.maxSize)
    ensures p.channel.Some? ==> o.pool.channel.Some?
    ensures p.channel.Some? && o.Threw? ==> o.pool == p && o.error.MakeFail?
    ensures p.channel.Some? && !p.channel.value.IsEmpty() ==>
              && o.Returned?
              && o.value == Queue(p)[0].resource
              && Queue(o.pool) == Queue(p)[1..]
              && o.pool.count == p.count && o.pool.pools == p.pools
    ensures p.channel.Some? && p.channel.value.IsEmpty() && p.count >= p.maxSize ==> o == Returned(p, None)
    ensures p.channel.Some? && p.channel.value.IsEmpty() && p.count < p.maxSize ==>
              && (o.Returned? <==> build.Built?)
              && (o.Threw? ==> o.pool == p && o.error == Provider.Make(p, build, crc32).error)
              && (o.Returned? && p.channel.value.capacity > 0 ==>
                    var key := Some(ObjectHash(build.handle));
                    && o.value == Some(build.handle)
                    && o.pool.count == p.count + 1
                    && Queue(o.pool) == []
                    && o.pool.pools == p.pools[key := Provider.Make(p, build, crc32).value])
    ensures Valid(p) ==> Valid(o.pool)
    ensures Valid(p) && o.Returned? ==>
              && (o.value.None? <==> p.channel.value.IsEmpty() && p.count >= p.maxSize)
              && (o.value.Some? ==> |Queue(o.pool)| == |Queue(p)| + (o.pool.count - p.count) - 1)
              && Outstanding(o.pool) == Outstanding(p) + (if o.value.Some? then 1 else 0)
  {
    if p.channel.None? then Threw(p, ChannelFail)
    else if p.channel.value.IsEmpty() && p.count < p.maxSize then
      match Provider.Make(p, build, crc32)
      case Threw(q, e) => Threw(q, e)
      case Returned(q, item) => PopResource(Push(q, item, true))
    else PopResource(p)
  }

  /** The record put stores for a returned handle: the existing record (or an
      empty one) with the handle, use_time set to now and make_time kept (0 when
      there was none); every other key is left as it was. */
  function Refreshed(prior: Item, r: Resource, now: int): (x: Item)
    ensures x.resource == Some(r) && x.useTime == Some(now)
    ensures x.makeTime == Some(prior.makeTime.GetOr(0))
    ensures x.pid == prior.pid && x.hash == prior.hash && x.threadId == prior.threadId
    ensures x.threadInfo == prior.threadInfo && x.kick == prior.kick
  {
    prior.(resource := Some(r), useTime := Some(now), makeTime := Some(prior.makeTime.GetOr(0)))
  }

  /** put: push the refreshed record and store it under the handle's hash; a
      failed push is swallowed after decrementing the count. The result is the
      channel's length afterwards. A handle that is not an object (`None`, the
      null a timed-out get hands out) makes the hashing raise (in PHP 8) in the
      guarded block before anything is pushed, and the catch only decrements.
      Without a channel the count is decremented and reading the length
      raises. */
  function Put(p: Pool, r: Option<Resource>, now: int): (o: Outcome<nat>)
    ensures p.channel.None? ==> o == Threw(p.(count := p.count - 1), NoChannel)
    ensures p.channel.Some? ==> o.Returned? && o.pool.channel.Some? && o.value == |Queue(o.pool)|
    ensures o.pool.minSize == p.minSize && o.pool.maxSize == p.maxSize
    ensures p.channel.Some? && r.None? ==> o == Returned(p.(count := p.count - 1), |Queue(p)|)
    ensures p.channel.Some? && r.Some? && !p.channel.value.IsFull() ==>
              var key := Some(ObjectHash(r.value));
              var x := Refreshed(Lookup(p.pools, key), r.value, now);
              && Queue(o.pool) == Queue(p) + [x]
              && o.pool.pools == p.pools[key := x]
              && o.pool.count == p.count
    ensures p.channel.Some? && r.Some? && p.channel.value.IsFull() ==> o.pool == p.(count := p.count - 1)
    ensures Valid(p) ==> Valid(o.pool) && Outstanding(o.pool) == Outstanding(p) - 1
  {
    if p.channel.None? then Threw(p.(count := p.count - 1), NoChannel)
    else if r.None? then Returned(p.(count := p.count - 1), |p.channel.value.items|)
    else
      var key := Some(ObjectHash(r.value));
      var x := Refreshed(Lookup(p.pools, key), r.value, now);
      match p.channel.value.Push(x)
      case None => Returned(p.(count := p.count - 1), |p.channel.value.items|)
      case Some(c) => Returned(p.(channel := Some(c), pools := p.pools[key := x]), |c.items|)
  }

  /** init: while count < minSize, make a handle and push it. Each element of
      `builds` is the result of one construction, used in order. */
  function Init(p: Pool, builds: seq<Construction>, crc32: string -> int): (o: InitOutcome)
    ensures o.pool.minSize == p.minSize && o.pool.maxSize == p.maxSize
    ensures o.Filled? ==> o.pool.count >= p.minSize
    ensures p.count >= p.minSize ==> o == Filled(p)
    ensures p.count <= o.pool.count <= (if p.count >= p.minSize then p.count else p.minSize)
    ensures o.Raised? ==> o.error.MakeFail?
    ensures (forall i | 0 <= i < |builds| :: builds[i].Built?) ==> !o.Raised?
    ensures p.count < p.minSize && |builds| > 0 && !builds[0].Built? ==>
              o == Raised(p, Provider.Make(p, builds[0], crc32).error)
    ensures p.channel.Some? ==>
              && o.pool.channel.Some?
              && o.pool.channel.value.capacity == p.channel.value.capacity
              && Queue(p) <= Queue(o.pool)
    ensures Valid(p) ==> Valid(o.pool) && Outstanding(o.pool) == Outstanding(p)
    decreases |builds|
  {
    if p.count >= p.minSize then Filled(p)
    else if |builds| == 0 then Unfinished(p)
    else
      match Provider.Make(p, builds[0], crc32)
      case Threw(q, e) => Raised(q, e)
      case Returned(q, item) =>
        assert forall i | 0 <= i < |builds[1..]| :: builds[1..][i] == builds[i + 1];
        Init(Push(q, item, true), builds[1..], crc32)
  }
}

=== FILE: php_text.dfy ===
/** The PHP string built-ins the pool relies on. */
module PhpText {

  /** PHP's empty() on a string: true for "" and for "0". */
  predicate IsEmpty(s: string) {
    s == "" || s == "0"
  }

  /** PHP's implode: the parts joined with the separator between them. */
  function Implode(sep: char, parts: seq<string>): string
    requires |parts| >= 1
    decreases |parts|
  {
    if |parts| == 1 then parts[0] else parts[0] + [sep] + Implode(sep, parts[1..])
  }

  /** PHP's explode with a one-character delimiter: the maximal separator-free
      pieces of `s`, so joining them back gives `s`. */
  function Explode(sep: char, s: string): (parts: seq<string>)
    ensures |parts| >= 1
    ensures forall i | 0 <= i < |parts| :: sep !in parts[i]
    ensures Implode(sep, parts) == s
    decreases |s|
  {
    if |s| == 0 then [""]
    else
      var rest := Explode(sep, s[1..]);
      if s[0] == sep then
        assert s == [sep] + s[1..];
        [""] + rest
      else
        var parts := [[s[0]] + rest[0]] + rest[1..];
        assert parts[1..] == rest[1..];
        assert s == [s[0]] + s[1..];
        parts
  }

  /** The first part is a prefix of the joined string. */
  lemma {:induction false} FirstPartIsPrefix(sep: char, parts: seq<string>)
    requires |parts| >= 2
    ensures parts[0] + [sep] + parts[1] <= Implode(sep, parts)
  {
    var tail := parts[1..];
    if |tail| > 1 {
      assert Implode(sep, tail) == tail[0] + [sep] + Implode(sep, tail[1..]);
    }
    assert parts[1] <= Implode(sep, tail);
  }

  /** Exploding a separator-free word followed by more text extends its first piece. */
  lemma {:induction false} ExplodeWord(sep: char, w: string, t: string)
    requires sep !in w
    ensures Explode(sep, w + t) == [w + Explode(sep, t)[0]] + Explode(sep, t)[1..]
    decreases |w|
  {
    var e := Explode(sep, t);
    if |w| > 0 {
      assert (w + t)[0] == w[0];
      assert (w + t)[1..] == w[1..] + t;
      ExplodeWord(sep, w[1..], t);
      var r := Explode(sep, w[1..] + t);
      assert r[0] == w[1..] + e[0];
      assert r[1..] == e[1..];
      assert Explode(sep, w + t) == [[w[0]] + r[0]] + r[1..];
      assert [w[0]] + (w[1..] + e[0]) == w + e[0];
    } else {
      assert w == "";
      assert w + t == t;
      assert w + e[0] == e[0];
      assert e == [e[0]] + e[1..];
    }
  }

  /** Explode undoes Implode on separator-free parts: the two are inverses. */
  lemma {:induction false} ExplodeImplode(sep: char, parts: seq<string>)
    requires |parts| >= 1
    requires forall i | 0 <= i < |parts| :: sep !in parts[i]
    ensures Explode(sep, Implode(sep, parts)) == parts
    decreases |parts|
  {
    if |parts| == 1 {
      ExplodeWord(sep, parts[0], "");
      assert parts[0] + "" == parts[0];
    } else {
      var rest := Implode(sep, parts[1..]);
      ExplodeImplode(sep, parts[1..]);
      assert Implode(sep, parts) == parts[0] + ([sep] + rest);
      ExplodeWord(sep, parts[0], [sep] + rest);
      assert ([sep] + rest)[1..] == rest;
      assert Explode(sep, [sep] + rest) == [""] + parts[1..];
      assert parts[0] + "" == parts[0];
      assert parts == [parts[0]] + parts[1..];
    }
  }
}

=== FILE: pool_state.dfy ===
/** The pool's bookkeeping state: the live counter, the free channel and the map
    from handle identity to its latest record. */
module PoolState {
  import opened Wrappers
  import opened Records
  import opened SlotQueue

  /** Default maximum number of live handles per process. */
  const DEFAULT_SIZE: nat := 35

  /** The floor `init` fills up to; fixed, not configurable. */
  const MIN_SIZE: int := 15

  /** What an operation can raise: 'channel fail' from get and length; the error
      of calling a method on a missing channel; a construction failure with the
      message make re-raises; a refused push where no handler catches it. */
  datatype Error = ChannelFail | NoChannel | MakeFail(message: string) | QueueFull

  /** minSize and maxSize bound `count`, the handles made and not yet discarded
      (queued or checked out). `channel` is None when no channel was created. */
  datatype Pool = Pool(
    minSize: int,
    maxSize: int,
    count: int,
    channel: Option<Channel>,
    pools: map<Key, Item>)

  /** How an operation ends: it returns a value, or raises; either way the
      state it leaves behind is recorded. */
  datatype Outcome<+T> = Returned(pool: Pool, value: T) | Threw(pool: Pool, error: Error)

  /** How `init` ends: it returns, or a construction raised, or the given
      construction results ran out while the count was still below the floor. */
  datatype InitOutcome = Filled(pool: Pool) | Raised(pool: Pool, error: Error) | Unfinished(pool: Pool)

  /** The records currently free in the channel. */
  function Queue(p: Pool): seq<Item>
    requires p.channel.Some?
  {
    p.channel.value.items
  }

  /** Handles counted as live but not in the channel: the ones checked out. */
  function Outstanding(p: Pool): int
    requires p.channel.Some?
  {
    p.count - |Queue(p)|
  }

  /** The shape every pool made by the constructor keeps: a channel with one
      slot above maxSize, never over capacity, holding only records that carry a
      handle, a use_time and a make_time. */
  predicate Valid(p: Pool) {
    && p.channel.Some?
    && p.maxSize >= 0
    && p.channel.value.capacity == p.maxSize + 1
    && p.channel.value.Valid()
    && forall i | 0 <= i < |p.channel.value.items| :: Complete(p.channel.value.items[i])
  }

  /** The constructor: maxSize is the size given (35 by default), the channel has capacity
      maxSize + 1, nothing is made yet. */
  function Create(size: nat := DEFAULT_SIZE): (p: Pool)
    ensures Valid(p) && p.maxSize == size && p.minSize == MIN_SIZE
    ensures p.count == 0 && Queue(p) == [] && p.pools == map[]
    ensures p.channel.value.capacity == size + 1
  {
    Pool(MIN_SIZE, size, 0, Some(New(size + 1)), map[])
  }
}

=== FILE: pool_theorems.dfy ===
/** Properties that relate several pool operations: refilling, the ceiling,
    and the round trips between get and put. */
module PoolTheorems {
  import opened Wrappers
  import opened Records
  import opened SlotQueue
  import opened PoolState
  import opened ConnectionPool
  import Provider
  import Sweeper

  /** Once init has returned, calling it again changes nothing and needs no
      construction. */
  lemma InitIdempotent(p: Pool, first: seq<Construction>, again: seq<Construction>, crc32: string -> int)
    requires Init(p, first, crc32).Filled?
    ensures var q := Init(p, first, crc32).pool;
            Init(q, again, crc32) == Filled(q)
  {
  }

  /** The first `n` constructions in the list (all of them, when there are
      fewer) succeed. */
  predicate FirstBuilt(builds: seq<Construction>, n: int) {
    forall i | 0 <= i < n && i < |builds| :: builds[i].Built?
  }

  /** Refill progress: when the channel has room for the floor and the
      constructions init actually calls succeed, init makes exactly the missing
      handles and returns with count at the floor; what the later entries of
      the list would do does not matter. */
  lemma {:induction false} InitFills(p: Pool, builds: seq<Construction>, crc32: string -> int)
    requires Valid(p)
    requires Outstanding(p) + p.channel.value.capacity >= p.minSize
    requires |builds| >= p.minSize - p.count && FirstBuilt(builds, p.minSize - p.count)
    ensures var o := Init(p, builds, crc32);
            && o.Filled?
            && o.pool.count == (if p.count >= p.minSize then p.count else p.minSize)
            && |Queue(o.pool)| == |Queue(p)| + (o.pool.count - p.count)
    decreases |builds|
  {
    if p.count < p.minSize {
      assert builds[0].Built?;
      var made := Provider.Make(p, builds[0], crc32);
      assert !made.pool.channel.value.IsFull();
      var q := Push(made.pool, made.value, true);
      assert FirstBuilt(builds[1..], q.minSize - q.count) by {
        forall i | 0 <= i < q.minSize - q.count && i < |builds[1..]| ensures builds[1..][i].Built? {
          assert builds[1..][i] == builds[i + 1];
        }
      }
      InitFills(q, builds[1..], crc32);
    }
  }

  /** A sweep refills too: on a valid pool with room for the floor and no
      more checked-out handles than made, enough successful constructions
      bring count back to at least the floor. At most minSize constructions
      are called, so only those need to succeed. */
  lemma SweepRefills(p: Pool, rows: seq<ProcessRow>, now: int, crc32: string -> int, builds: seq<Construction>)
    requires Valid(p) && Outstanding(p) >= 0
    requires Outstanding(p) + p.channel.value.capacity >= p.minSize
    requires |builds| >= p.minSize && FirstBuilt(builds, p.minSize)
    ensures var o := Sweeper.Sweep(p, rows, now, crc32, builds);
            o.Filled? && o.pool.count >= p.minSize
  {
    var s := Sweeper.Snapshot(Sweeper.SessionTable(rows), now, crc32);
    Sweeper.PassKeepsValid(p, s);
    InitFills(Sweeper.Pass(p, s).pool, builds, crc32);
  }

  /** A pool built with the default size has room for the floor: given 15
      successful constructions, its init fills it to 15, within maxSize. */
  lemma DefaultPoolFills(builds: seq<Construction>, crc32: string -> int)
    requires |builds| >= MIN_SIZE && FirstBuilt(builds, MIN_SIZE)
    ensures var o := Init(Create(), builds, crc32);
            o.Filled? && o.pool.count == MIN_SIZE && o.pool.count <= o.pool.maxSize == DEFAULT_SIZE
  {
    InitFills(Create(), builds, crc32);
  }

  /** A raising init raised the error of the first construction that failed,
      every earlier one having succeeded. The index is not bounded by the
      missing count: a refused push gives its count back, so init may call
      more constructions than that. */
  lemma {:induction false} InitRaisesFirstFailure(p: Pool, builds: seq<Construction>, crc32: string -> int)
    ensures var o := Init(p, builds, crc32);
            o.Raised? ==>
              exists i | 0 <= i < |builds| ::
                && !builds[i].Built?
                && (forall j | 0 <= j < i :: builds[j].Built?)
                && o.error == Provider.Make(p, builds[i], crc32).error
    decreases |builds|
  {
    var o := Init(p, builds, crc32);
    if o.Raised? {
      if !builds[0].Built? {
        assert o.error == Provider.Make(p, builds[0], crc32).error;
      } else {
        var made := Provider.Make(p, builds[0], crc32);
        var q := Push(made.pool, made.value, true);
        var rest := builds[1..];
        assert o == Init(q, rest, crc32);
        InitRaisesFirstFailure(q, rest, crc32);
        var k :| && 0 <= k < |rest|
                 && !rest[k].Built?
                 && (forall j | 0 <= j < k :: rest[j].Built?)
                 && o.error == Provider.Make(q, rest[k], crc32).error;
        assert builds[k + 1] == rest[k];
        assert Provider.Make(q, rest[k], crc32).error == Provider.Make(p, rest[k], crc32).error;
        forall j | 0 <= j < k + 1 ensures builds[j].Built? {
          if j > 0 {
            assert builds[j] == rest[j - 1];
          }
        }
      }
    }
  }

  /** Init can only return once count reaches the floor, but count never gets
      past the queued records plus the checked-out ones: when the channel is too
      small for that, init never returns normally. */
  lemma InitNeverFillsSmallChannel(p: Pool, builds: seq<Construction>, crc32: string -> int)
    requires Valid(p)
    requires Outstanding(p) + p.channel.value.capacity < p.minSize
    ensures !Init(p, builds, crc32).Filled?
  {
  }

  /** With the floor fixed at 15, a pool created with size 13 or less has room
      for at most 14 records, so its init never returns normally. */
  lemma SmallPoolNeverFills(size: nat, builds: seq<Construction>, crc32: string -> int)
    requires size + 2 <= MIN_SIZE
    ensures !Init(Create(size), builds, crc32).Filled?
  {
    InitNeverFillsSmallChannel(Create(size), builds, crc32);
  }

  /** When the floor is above the ceiling (size 14 with the fixed floor of 15)
      a successful init leaves more than maxSize handles live. */
  lemma FloorAboveCeilingOvershoots(p: Pool, builds: seq<Construction>, crc32: string -> int)
    requires p.minSize > p.maxSize
    requires Init(p, builds, crc32).Filled?
    ensures Init(p, builds, crc32).pool.count > p.maxSize
  {
  }

  /** Capacity invariant: with the floor at or below the ceiling, no operation
      takes count above maxSize. */
  lemma CeilingKept(p: Pool, build: Construction, builds: seq<Construction>, r: Option<Resource>,
                    rows: seq<ProcessRow>, now: int, crc32: string -> int)
    requires Valid(p) && p.minSize <= p.maxSize && p.count <= p.maxSize
    ensures Get(p, build, crc32).pool.count <= p.maxSize
    ensures Put(p, r, now).pool.count <= p.maxSize
    ensures Init(p, builds, crc32).pool.count <= p.maxSize
    ensures Sweeper.Sweep(p, rows, now, crc32, builds).pool.count <= p.maxSize
  {
  }

  /** The first get on a new pool makes one handle, pushes it and hands it out. */
  lemma FirstGetMakes(size: nat, build: Construction, crc32: string -> int)
    requires size >= 1 && build.Built?
    ensures var o := Get(Create(size), build, crc32);
            && o == Returned(o.pool, Some(build.handle))
            && o.pool.count == 1
            && Queue(o.pool) == []
            && Outstanding(o.pool) == 1
            && Some(ObjectHash(build.handle)) in o.pool.pools
  {
    var p := Create(size);
    var q := Provider.Make(p, build, crc32).pool;
    var x := Provider.Make(p, build, crc32).value;
    assert !q.channel.value.IsFull();
  }

  /** On an exhausted pool (channel empty, count at maxSize) get makes nothing
      and its pop times out: it returns null and leaves the pool unchanged. */
  lemma ExhaustedGetTimesOut(p: Pool, build: Construction, crc32: string -> int)
    requires Valid(p) && Queue(p) == [] && p.count >= p.maxSize
    ensures Get(p, build, crc32) == Returned(p, None)
  {
  }

  /** put's result is what length reports right after it. */
  lemma PutReturnsLength(p: Pool, r: Option<Resource>, now: int)
    requires p.channel.Some?
    ensures Length(Put(p, r, now).pool) == Success(Put(p, r, now).value)
  {
  }

  /** A handle put onto an empty channel is the one the next get hands out,
      and the pool's record of it carries the time of the put. */
  lemma PutThenGet(p: Pool, r: Resource, now: int, build: Construction, crc32: string -> int)
    requires Valid(p) && Queue(p) == []
    ensures var put := Put(p, Some(r), now);
            var got := Get(put.pool, build, crc32);
            && put.value == 1
            && got.value == Some(r)
            && got.pool.count == p.count
            && Queue(got.pool) == []
            && got.pool.pools[Some(ObjectHash(r))].useTime == Some(now)
  {
    assert !p.channel.value.IsFull();
  }

  /** get followed by put of the handle it returned rotates the channel: the
      head record moves to the tail with its use_time refreshed, and count and
      the number of checked-out handles are as before. */
  lemma GetThenPutRotates(p: Pool, r: Resource, now: int, build: Construction, crc32: string -> int)
    requires Valid(p) && Queue(p) != []
    requires Queue(p)[0].resource == Some(r)
    requires Lookup(p.pools, Some(ObjectHash(r))) == Queue(p)[0]
    ensures var got := Get(p, build, crc32);
            var put := Put(got.pool, got.value, now);
            && got.value == Some(r)
            && Queue(put.pool) == Queue(p)[1..] + [Queue(p)[0].(useTime := Some(now))]
            && put.pool.count == p.count
            && Outstanding(put.pool) == Outstanding(p)
  {
    var got := Get(p, build, crc32);
    assert !got.pool.channel.value.IsFull();
    var x := Queue(p)[0];
    assert Complete(x);
    assert Refreshed(x, r, now) == x.(useTime := Some(now), makeTime := Some(x.makeTime.GetOr(0)));
  }

  /** Under PHP 8, putting back the null a timed-out get returned still costs
      a count: afterwards count is one less than the handles actually made and
      not discarded, so from maxSize the ceiling check in the next get lets one
      extra handle be made. */
  lemma TimedOutPutLosesCount(p: Pool, build: Construction, next: Construction, now: int, crc32: string -> int)
    requires Valid(p) && Queue(p) == [] && p.count >= p.maxSize
    ensures var got := Get(p, build, crc32);
            var put := Put(got.pool, got.value, now);
            && got.value.None?
            && put.pool.count == p.count - 1
            && Queue(put.pool) == Queue(p)
            && Outstanding(put.pool) == Outstanding(p) - 1
            && (p.count == p.maxSize && next.Built? ==>
                  var again := Get(put.pool, next, crc32);
                  again.value == Some(next.handle) && again.pool.count == p.maxSize)
  {
  }

  /** No two free records carry the same handle. */
  predicate DistinctHandles(items: seq<Item>) {
    forall i, j | 0 <= i < j < |items| :: items[i].resource != items[j].resource
  }

  /** No double issue: when the free records carry distinct handles, the
      handle get returns is no longer in the channel, so no later get can
      return it before it is put back. */
  lemma {:induction false} NoDoubleIssue(p: Pool, build: Construction, crc32: string -> int)
    requires Valid(p) && DistinctHandles(Queue(p))
    ensures var o := Get(p, build, crc32);
            o.Returned? && o.value.Some? ==>
              && DistinctHandles(Queue(o.pool))
              && forall i | 0 <= i < |Queue(o.pool)| :: Queue(o.pool)[i].resource != o.value
  {
    var o := Get(p, build, crc32);
    if Queue(p) != [] {
      assert forall i | 0 <= i < |Queue(o.pool)| :: Queue(o.pool)[i] == Queue(p)[i + 1];
    }
  }
}

=== FILE: provider.dfy ===
/** The database provider's construction side: building a record for a new
    connection and finding where the server sees that connection bound. */
module Provider {
  import opened Wrappers
  import opened Records
  import opened PhpText
  import opened PoolState

  /** The endpoint stored for a process-list host: the host split at ':' into
      ip and port (no port when there is no ':'), and the checksum of the whole
      host string. */
  function EndpointOf(host: string, crc32: string -> int): (info: ThreadInfo)
    ensures info.crc32 == crc32(host)
    ensures ':' !in info.ip
    ensures info.port.None? <==> ':' !in host
    ensures info.port.None? ==> info.ip == host
    ensures info.port.Some? ==> ':' !in info.port.value && info.ip + ":" + info.port.value <= host
    ensures info.port.Some? ==>
              var n := |info.ip| + 1 + |info.port.value|;
              n == |host| || host[n] == ':'
  {
    var parts := Explode(':', host);
    if |parts| == 1 then
      ThreadInfo(parts[0], None, crc32(host))
    else
      FirstPartIsPrefix(':', parts);
      var tail := Implode(':', parts[1..]);
      assert host == parts[0] + [':'] + tail;
      assert |parts| > 2 ==> tail == parts[1] + [':'] + Implode(':', parts[2..]);
      assert |parts| == 2 ==> tail == parts[1];
      ThreadInfo(parts[0], Some(parts[1]), crc32(host))
  }

  /** getThreadInfo: the endpoint of the FIRST process-list row whose Id is the
      session id, or nothing (an empty array) when no row has it. */
  function GetThreadInfo(rows: seq<ProcessRow>, threadId: int, crc32: string -> int): (r: Option<ThreadInfo>)
    ensures r.None? <==> forall k | 0 <= k < |rows| :: rows[k].id != threadId
    ensures forall k | 0 <= k < |rows| && rows[k].id == threadId && (forall j | 0 <= j < k :: rows[j].id != threadId) ::
              r == Some(EndpointOf(rows[k].host, crc32))
    decreases |rows|
  {
    if |rows| == 0 then None
    else if rows[0].id == threadId then Some(EndpointOf(rows[0].host, crc32))
    else
      var r := GetThreadInfo(rows[1..], threadId, crc32);
      assert forall k | 1 <= k < |rows| :: rows[k] == rows[1..][k - 1];
      r
  }

  /** make: the counter is raised before the closure runs and restored if the
      closure or the introspection fails, the failure being re-raised with the
      same message ("make pdo fail" when the closure returns no PDO). */
  function Make(p: Pool, build: Construction, crc32: string -> int): (o: Outcome<Item>)
    ensures o.pool.channel == p.channel && o.pool.pools == p.pools
    ensures o.pool.minSize == p.minSize && o.pool.maxSize == p.maxSize
    ensures o.Returned? <==> build.Built?
    ensures o.Threw? ==> o.pool == p && o.error.MakeFail?
    ensures build.NotPdo? ==> o == Threw(p, MakeFail("make pdo fail"))
    ensures build.BuildFailed? ==> o == Threw(p, MakeFail(build.message))
    ensures o.Returned? ==>
              && o.pool.count == p.count + 1
              && o.value.resource == Some(build.handle)
              && o.value.hash == Some(ObjectHash(build.handle))
              && o.value.useTime == Some(0)
              && o.value.makeTime == Some(build.madeAt)
              && o.value.pid == Some(build.pid)
              && o.value.threadId == Some(build.threadId)
              && o.value.threadInfo == GetThreadInfo(build.processlist, build.threadId, crc32)
              && o.value.kick == Some(false)
  {
    var counted := p.(count := p.count + 1);
    match build
    case NotPdo => Threw(counted.(count := counted.count - 1), MakeFail("make pdo fail"))
    case BuildFailed(message) => Threw(counted.(count := counted.count - 1), MakeFail(message))
    case Built(handle, threadId, rows, pid, madeAt) =>
      Returned(counted, Item(
        resource := Some(handle),
        useTime := Some(0),
        makeTime := Some(madeAt),
        pid := Some(pid),
        hash := Some(ObjectHash(handle)),
        threadId := Some(threadId),
        threadInfo := GetThreadInfo(rows, threadId, crc32),
        kick := Some(false)))
  }
}

=== FILE: records.dfy ===
/** The data the pool moves around: handles, records and the server's process list. */
module Records {
  import opened Wrappers

  /** What spl_object_hash reports for a handle: its object identity. */
  type Hash = nat

  /** A pooled handle (a PDO connection); only its identity matters to the pool. */
  datatype Resource = Resource(id: nat)

  function ObjectHash(r: Resource): Hash {
    r.id
  }

  /** Keys of the pools map. PHP stores a null key under "", which is `None` here;
      an object hash is never the empty string, so the two cannot collide. */
  type Key = Option<Hash>

  /** Where the server saw a session bound when the record was made. */
  datatype ThreadInfo = ThreadInfo(ip: string, port: Option<string>, crc32: int)

  /** One row of `show full processlist`: the session id and its "address:port" host. */
  datatype ProcessRow = ProcessRow(id: int, host: string)

  /** A pool record. The source keeps it as a PHP array, so every key may be absent:
      `make` fills all of them, while `put` on a handle the pool has no record of
      fills only resource, use_time and make_time. An empty thread_info array and
      a missing one are both `None`. */
  datatype Item = Item(
    resource: Option<Resource>,
    useTime: Option<int>,
    makeTime: Option<int>,
    pid: Option<int>,
    hash: Option<Hash>,
    threadId: Option<int>,
    threadInfo: Option<ThreadInfo>,
    kick: Option<bool>)

  /** The keys both make and put always set are present. */
  predicate Complete(x: Item) {
    x.resource.Some? && x.useTime.Some? && x.makeTime.Some?
  }

  /** The empty PHP array `[]`. */
  const EmptyItem := Item(None, None, None, None, None, None, None, None)

  /** The entry stored under `key`, or an empty record when there is none. */
  function Lookup(pools: map<Key, Item>, key: Key): Item {
    if key in pools then pools[key] else EmptyItem
  }

  /** The hashes carried by a list of records, as pools-map keys. */
  function KeysOf(items: seq<Item>): set<Key> {
    set i | 0 <= i < |items| :: items[i].hash
  }

  /** What one call of the user's construction closure, followed by the two
      introspection queries on the new handle, yields: a handle with its server
      session id, the process list seen, the process id and the clock reading;
      a value that is not a PDO; or an exception with its message. */
  datatype Construction =
    | Built(handle: Resource, threadId: int, processlist: seq<ProcessRow>, pid: int, madeAt: int)
    | NotPdo
    | BuildFailed(message: string)
}

=== FILE: slot_queue.dfy ===
/** The bounded channel the pool uses as its free list, as seen from one
    cooperative context: a pop on an empty channel gives up (None) once its wait
    runs out, and a push on a full channel is refused. */
module SlotQueue {
  import opened Wrappers
  import opened Records

  /** A FIFO channel of records holding at most `capacity` of them. */
  datatype Channel = Channel(capacity: nat, items: seq<Item>) {

    predicate Valid() {
      |items| <= capacity
    }

    predicate IsEmpty() {
      |items| == 0
    }

    predicate IsFull() {
      |items| >= capacity
    }

    /** Appends `x` at the tail; refused (None) when the channel is full. */
    function Push(x: Item): (r: Option<Channel>)
      ensures r.None? <==> IsFull()
      ensures r.Some? ==> r.value.capacity == capacity && r.value.items == items + [x]
      ensures r.Some? && Valid() ==> r.value.Valid()
    {
      if IsFull() then None else Some(this.(items := items + [x]))
    }

    /** Takes the head record; an empty channel yields None and stays as it is. */
    function Pop(): (r: (Option<Item>, Channel))
      ensures r.1.capacity == capacity
      ensures IsEmpty() ==> r.0.None? && r.1 == this
      ensures !IsEmpty() ==> r.0 == Some(items[0]) && r.1.items == items[1..]
      ensures Valid() ==> r.1.Valid()
    {
      if IsEmpty() then (None, this) else (Some(items[0]), this.(items := items[1..]))
    }
  }

  function New(capacity: nat): (c: Channel)
    ensures c.Valid() && c.IsEmpty() && c.capacity == capacity
  {
    Channel(capacity, [])
  }

  /** Pushes the records one after another, as a loop of push calls does; on a
      refused push the Failure carries the channel as it was at that moment. */
  function PushAll(c: Channel, xs: seq<Item>): (r: Result<Channel, Channel>)
    ensures |c.items| + |xs| <= c.capacity ==> r == Success(c.(items := c.items + xs))
    ensures c.Valid() && r.Success? ==> |c.items| + |xs| <= c.capacity
    ensures r.Failure? ==> r.error.capacity == c.capacity && r.error.Valid() == c.Valid()
    decreases |xs|
  {
    if |xs| == 0 then
      assert c.items + xs == c.items;
      Success(c)
    else
      match c.Push(xs[0])
      case None => Failure(c)
      case Some(next) =>
        assert c.items + xs == next.items + xs[1..];
        PushAll(next, xs[1..])
  }

  /** FIFO: a record pushed behind others does not overtake them, and a record
      pushed onto an empty channel is the next one popped. */
  lemma PopAfterPush(c: Channel, x: Item)
    requires !c.IsFull()
    ensures var pushed := c.Push(x).value;
            pushed.Pop().0 == Some(if c.IsEmpty() then x else c.items[0])
  {
  }
}

=== FILE: sweeper.dfy ===
/** One pass of the periodic sweep installed by handleSpare: drain the channel,
    decide kick or keep for each record, push the kept ones back, forget the
    kicked ones, then refill to the floor with init. */
module Sweeper {
  import opened Wrappers
  import opened Records
  import opened PhpText
  import opened SlotQueue
  import opened PoolState
  import ConnectionPool
  import Provider

  /** Idle seconds after which a used record is kicked (5 minutes). */
  const USED_IDLE_LIMIT := 60 * 5

  /** Idle seconds after which a never-used record is kicked (10 minutes). */
  const UNUSED_IDLE_LIMIT := 60 * 10

  /** What a pass observes: the session table built from a fresh process list,
      the clock, and the checksum function. */
  datatype Snapshot = Snapshot(table: map<int, string>, now: int, crc32: string -> int)

  /** array_combine of the process list's Id and Host columns: one entry per
      listed Id. */
  function SessionTable(rows: seq<ProcessRow>): (t: map<int, string>)
    ensures t.Keys == set k | 0 <= k < |rows| :: rows[k].id
    decreases |rows|
  {
    if |rows| == 0 then map[]
    else
      var init := rows[..|rows| - 1];
      var last := rows[|rows| - 1];
      assert (set k | 0 <= k < |rows| :: rows[k].id) == (set k | 0 <= k < |init| :: init[k].id) + {last.id} by {
        assert forall k | 0 <= k < |init| :: rows[k] == init[k];
      }
      SessionTable(init)[last.id := last.host]
  }

  /** When Ids repeat, the LAST row carrying an Id gives its host. */
  lemma {:induction false} SessionTableLastWins(rows: seq<ProcessRow>, k: nat)
    requires k < |rows|
    requires forall j | k < j < |rows| :: rows[j].id != rows[k].id
    ensures rows[k].id in SessionTable(rows) && SessionTable(rows)[rows[k].id] == rows[k].host
    decreases |rows|
  {
    assert rows[k].id in set i | 0 <= i < |rows| :: rows[i].id;
    if k < |rows| - 1 {
      var init := rows[..|rows| - 1];
      assert init[k] == rows[k];
      assert forall j | k < j < |init| :: init[j] == rows[j];
      SessionTableLastWins(init, k);
    }
  }

  /** The listed host of the record's session, or "" when the record has no
      session id or the id is not listed. */
  function HostOf(table: map<int, string>, threadId: Option<int>): (h: string)
    ensures threadId.Some? && threadId.value in table ==> h == table[threadId.value]
    ensures h != "" ==> threadId.Some? && threadId.value in table
  {
    if threadId.Some? && threadId.value in table then table[threadId.value] else ""
  }

  /** The stored checksum equals `c`; a record without thread_info has none, and
      null never equals a checksum under `!==`. */
  predicate ChecksumIs(info: Option<ThreadInfo>, c: int) {
    info.Some? && info.value.crc32 == c
  }

  /** The record's server session is still listed, at the endpoint it was made on. */
  predicate SessionAlive(x: Item, s: Snapshot) {
    var host := HostOf(s.table, x.threadId);
    !IsEmpty(host) && ChecksumIs(x.threadInfo, s.crc32(host))
  }

  /** The kick rule in the source's order: session checks first, then
      make_time, then the idle limit that fits whether the record was ever used. */
  function ShouldKick(x: Item, s: Snapshot): (r: bool)
    ensures r <==> Stale(x, s)
  {
    var host := HostOf(s.table, x.threadId);
    var kick := if IsEmpty(host) then true else !ChecksumIs(x.threadInfo, s.crc32(host));
    if kick then true
    else if x.makeTime.GetOr(0) <= 0 then true
    else if x.useTime.GetOr(0) >= 1 then s.now - x.useTime.GetOr(0) > USED_IDLE_LIMIT
    else s.now - x.makeTime.GetOr(0) > UNUSED_IDLE_LIMIT
  }

  /** Staleness stated declaratively: the session is gone or moved, the record
      was never validly made, or it sat idle past the limit for its kind. */
  predicate Stale(x: Item, s: Snapshot) {
    var made := x.makeTime.GetOr(0);
    var used := x.useTime.GetOr(0);
    || !SessionAlive(x, s)
    || made <= 0
    || (used >= 1 && s.now - used > USED_IDLE_LIMIT)
    || (used < 1 && s.now - made > UNUSED_IDLE_LIMIT)
  }

  /** A record whose session is not listed (or listed with an empty host) is
      kicked whatever its timestamps. */
  lemma SessionGoneKicks(x: Item, s: Snapshot)
    requires IsEmpty(HostOf(s.table, x.threadId))
    ensures forall used, made :: ShouldKick(x.(useTime := used, makeTime := made), s)
  {
  }

  /** A record whose session id is listed at an endpoint whose checksum differs
      from the stored one (the id now names another connection) is kicked
      whatever its timestamps. */
  lemma EndpointChangeKicks(x: Item, s: Snapshot)
    requires !ChecksumIs(x.threadInfo, s.crc32(HostOf(s.table, x.threadId)))
    ensures forall used, made :: ShouldKick(x.(useTime := used, makeTime := made), s)
  {
  }

  /** A record with no positive make_time is kicked. */
  lemma UnmadeKicks(x: Item, s: Snapshot)
    requires x.makeTime.GetOr(0) <= 0
    ensures ShouldKick(x, s)
  {
  }

  /** A used record that passes the other checks is kicked exactly when it has
      been idle more than 300 seconds: 300 seconds idle is kept. */
  lemma UsedIdleLimit(x: Item, s: Snapshot)
    requires SessionAlive(x, s) && x.makeTime.GetOr(0) > 0
    requires x.useTime.Some? && x.useTime.value >= 1
    ensures ShouldKick(x, s) <==> s.now - x.useTime.value > 300
  {
  }

  /** A never-used record that passes the other checks is kicked exactly when
      it was made more than 600 seconds ago. */
  lemma UnusedIdleLimit(x: Item, s: Snapshot)
    requires SessionAlive(x, s) && x.makeTime.Some? && x.makeTime.value > 0
    requires x.useTime.GetOr(0) < 1
    ensures ShouldKick(x, s) <==> s.now - x.makeTime.value > 600
  {
  }

  /** The drained records split into the kick list and the active list. */
  datatype Partition<T> = Partition(kicks: seq<T>, actives: seq<T>)

  /** The kick rule as a function of the record, for one snapshot. */
  function Verdict(s: Snapshot): Item -> bool {
    x => ShouldKick(x, s)
  }

  /** The drain loop's classification by a kick decision, in drain order. */
  function Classify<T>(items: seq<T>, kick: T -> bool): (r: Partition<T>)
    ensures |r.kicks| + |r.actives| == |items|
    ensures forall i | 0 <= i < |r.kicks| :: kick(r.kicks[i])
    ensures forall i | 0 <= i < |r.actives| :: !kick(r.actives[i])
    decreases |items|
  {
    if |items| == 0 then Partition([], [])
    else
      var rest := Classify(items[1..], kick);
      if kick(items[0]) then Partition([items[0]] + rest.kicks, rest.actives)
      else Partition(rest.kicks, [items[0]] + rest.actives)
  }

  /** A non-empty sequence's multiset is its head's plus its tail's. */
  lemma HeadTailMultiset<T>(s: seq<T>)
    requires |s| > 0
    ensures multiset(s) == multiset{s[0]} + multiset(s[1..])
  {
    assert s == [s[0]] + s[1..];
  }

  /** Classification neither loses nor invents a record. */
  lemma {:induction false} ClassifyPermutes<T>(items: seq<T>, kick: T -> bool)
    ensures var r := Classify(items, kick);
            multiset(r.kicks) + multiset(r.actives) == multiset(items)
    decreases |items|
  {
    if |items| > 0 {
      var r, rest := Classify(items, kick), Classify(items[1..], kick);
      ClassifyPermutes(items[1..], kick);
      HeadTailMultiset(items);
      if kick(items[0]) {
        assert r.kicks == [items[0]] + rest.kicks && r.actives == rest.actives;
        HeadTailMultiset(r.kicks);
        assert r.kicks[1..] == rest.kicks;
      } else {
        assert r.actives == [items[0]] + rest.actives && r.kicks == rest.kicks;
        HeadTailMultiset(r.actives);
        assert r.actives[1..] == rest.actives;
      }
    }
  }

  /** Every record lands in one of the two lists, and nothing else does. */
  lemma ClassifyMembers<T>(items: seq<T>, kick: T -> bool)
    ensures var r := Classify(items, kick);
            && (forall x | x in items :: x in r.kicks || x in r.actives)
            && (forall x | x in r.kicks :: x in items)
            && (forall x | x in r.actives :: x in items)
  {
    var r := Classify(items, kick);
    ClassifyPermutes(items, kick);
    forall x | x in items ensures x in r.kicks || x in r.actives {
      assert x in multiset(items);
    }
    forall x | x in r.kicks ensures x in items {
      assert x in multiset(r.kicks);
      assert x in multiset(items);
    }
    forall x | x in r.actives ensures x in items {
      assert x in multiset(r.actives);
      assert x in multiset(items);
    }
  }

  /** Every record with key `h` among `items` is kept. */
  predicate KeptKey(items: seq<Item>, h: Key, kick: Item -> bool) {
    forall j | 0 <= j < |items| && items[j].hash == h :: !kick(items[j])
  }

  /** For each drained record in turn, set the kick flag of the entry under
      the record's hash, creating an entry holding only the flag if needed. */
  function Mark(pools: map<Key, Item>, items: seq<Item>, kick: Item -> bool): (m: map<Key, Item>)
    ensures m.Keys == pools.Keys + KeysOf(items)
    ensures forall h | h in pools && h !in KeysOf(items) :: m[h] == pools[h]
    decreases |items|
  {
    if |items| == 0 then pools
    else
      var h := items[0].hash;
      var pools' := pools[h := Lookup(pools, h).(kick := Some(kick(items[0])))];
      assert KeysOf(items) == {h} + KeysOf(items[1..]) by {
        assert forall i | 1 <= i < |items| :: items[i] == items[1..][i - 1];
      }
      Mark(pools', items[1..], kick)
  }

  /** A key that only kept records carry ends up with its old entry, flagged
      kick = false, however often it was marked. */
  lemma {:induction false} MarkFlagsKept(pools: map<Key, Item>, items: seq<Item>, kick: Item -> bool, h: Key)
    requires h in KeysOf(items) && KeptKey(items, h, kick)
    ensures h in Mark(pools, items, kick)
    ensures Mark(pools, items, kick)[h] == Lookup(pools, h).(kick := Some(false))
    decreases |items|
  {
    var g := items[0].hash;
    var pools' := pools[g := Lookup(pools, g).(kick := Some(kick(items[0])))];
    var rest := items[1..];
    assert Mark(pools, items, kick) == Mark(pools', rest, kick);
    if g == h {
      assert !kick(items[0]);
    }
    if exists k | 0 < k < |items| :: items[k].hash == h {
      var k :| 0 < k < |items| && items[k].hash == h;
      assert rest[k - 1].hash == h;
      forall j | 0 <= j < |rest| && rest[j].hash == h ensures !kick(rest[j]) {
        assert rest[j] == items[j + 1];
      }
      MarkFlagsKept(pools', rest, kick, h);
      assert Lookup(pools', h).(kick := Some(false)) == Lookup(pools, h).(kick := Some(false));
    } else {
      var i :| 0 <= i < |items| && items[i].hash == h;
      assert i == 0 && g == h;
      forall k | 0 <= k < |rest| ensures rest[k].hash != h {
        assert rest[k] == items[k + 1];
      }
      assert h in pools' && h !in KeysOf(rest);
      assert Mark(pools', rest, kick)[h] == pools'[h];
    }
  }

  /** The kick loop: one decrement of count and one unset per kicked record. */
  function Evict(p: Pool, kicks: seq<Item>): (q: Pool)
    ensures q == p.(count := p.count - |kicks|, pools := p.pools - KeysOf(kicks))
    decreases |kicks|
  {
    if |kicks| == 0 then
      assert p.pools - KeysOf(kicks) == p.pools;
      p
    else
      var next := p.(count := p.count - 1, pools := p.pools - {kicks[0].hash});
      assert KeysOf(kicks) == {kicks[0].hash} + KeysOf(kicks[1..]) by {
        assert forall i | 1 <= i < |kicks| :: kicks[i] == kicks[1..][i - 1];
      }
      assert next.pools - KeysOf(kicks[1..]) == p.pools - KeysOf(kicks);
      Evict(next, kicks[1..])
  }

  /** A key that no kicked record carries belongs only to kept records. */
  lemma {:induction false} KeptKeyOfActive(items: seq<Item>, r: Partition<Item>, h: Key, kick: Item -> bool)
    requires forall x | x in items :: x in r.kicks || x in r.actives
    requires forall i | 0 <= i < |r.actives| :: !kick(r.actives[i])
    requires h !in KeysOf(r.kicks)
    ensures KeptKey(items, h, kick)
  {
    forall j | 0 <= j < |items| && items[j].hash == h
      ensures !kick(items[j])
    {
      var x := items[j];
      assert x !in r.kicks;
      assert x in r.actives;
      var i :| 0 <= i < |r.actives| && r.actives[i] == x;
    }
  }

  /** After the kick loop, no kicked record's key is left in the pools map. */
  lemma KickedKeysGone(m: map<Key, Item>, kicks: seq<Item>)
    ensures forall i | 0 <= i < |kicks| :: kicks[i].hash !in m - KeysOf(kicks)
  {
    assert forall i | 0 <= i < |kicks| :: kicks[i].hash in KeysOf(kicks);
  }

  /** Keys only kept records carry keep their entry, flagged kick = false. */
  lemma {:induction false} KeptKeysFlagged(pools: map<Key, Item>, drained: seq<Item>, kick: Item -> bool)
    ensures var r := Classify(drained, kick);
            var m := Mark(pools, drained, kick) - KeysOf(r.kicks);
            forall i | 0 <= i < |r.actives| && r.actives[i].hash !in KeysOf(r.kicks) ::
              && r.actives[i].hash in m
              && m[r.actives[i].hash] == Lookup(pools, r.actives[i].hash).(kick := Some(false))
  {
    var r := Classify(drained, kick);
    ClassifyMembers(drained, kick);
    forall i | 0 <= i < |r.actives| && r.actives[i].hash !in KeysOf(r.kicks)
      ensures var h := r.actives[i].hash;
              h in Mark(pools, drained, kick) && Mark(pools, drained, kick)[h] == Lookup(pools, h).(kick := Some(false))
    {
      assert r.actives[i] in drained;
      var j :| 0 <= j < |drained| && drained[j] == r.actives[i];
      KeptKeyOfActive(drained, r, r.actives[i].hash, kick);
      MarkFlagsKept(pools, drained, kick, r.actives[i].hash);
    }
  }

  /** Keys of no drained record are left as they were. */
  lemma UndrainedKeysUntouched(pools: map<Key, Item>, drained: seq<Item>, kick: Item -> bool)
    ensures var r := Classify(drained, kick);
            var m := Mark(pools, drained, kick) - KeysOf(r.kicks);
            forall h | h in pools && h !in KeysOf(drained) :: h in m && m[h] == pools[h]
  {
    var r := Classify(drained, kick);
    ClassifyMembers(drained, kick);
    forall h | h in KeysOf(r.kicks) ensures h in KeysOf(drained) {
      var i :| 0 <= i < |r.kicks| && r.kicks[i].hash == h;
      assert r.kicks[i] in drained;
      var j :| 0 <= j < |drained| && drained[j] == r.kicks[i];
    }
  }

  /** A valid pool whose channel is refilled with some of its own free
      records, no more than fit, is still valid. */
  lemma RequeuedValid(p: Pool, actives: seq<Item>)
    requires Valid(p)
    requires |actives| <= p.channel.value.capacity
    requires forall x | x in actives :: x in Queue(p)
    ensures Valid(p.(channel := Some(p.channel.value.(items := actives))))
  {
    forall i | 0 <= i < |actives| ensures Complete(actives[i]) {
      assert actives[i] in Queue(p);
    }
  }

  /** The body of one sweep up to (not including) the final init: drain,
      classify and mark, push the actives back, evict the kicks. */
  function Pass(p: Pool, s: Snapshot): (o: Outcome<Partition<Item>>)
    ensures p.channel.None? ==> o == Threw(p, NoChannel)
    ensures o.pool.minSize == p.minSize && o.pool.maxSize == p.maxSize
    ensures p.channel.Some? ==> o.pool.channel.Some? && o.pool.channel.value.capacity == p.channel.value.capacity
    ensures o.Returned? ==>
              && p.channel.Some?
              && o.value == Classify(Queue(p), Verdict(s))
              && Queue(o.pool) == o.value.actives
              && o.pool.count == p.count - |o.value.kicks|
              && o.pool.pools == Mark(p.pools, Queue(p), Verdict(s)) - KeysOf(o.value.kicks)
  {
    if p.channel.None? then Threw(p, NoChannel)
    else
      var drained := p.channel.value.items;
      var r := Classify(drained, Verdict(s));
      var marked := Mark(p.pools, drained, Verdict(s));
      match PushAll(p.channel.value.(items := []), r.actives)
      case Failure(c) => Threw(p.(channel := Some(c), pools := marked), QueueFull)
      case Success(c) => Returned(Evict(p.(channel := Some(c), pools := marked), r.kicks), r)
  }

  /** On a valid pool a pass always completes, keeps the pool valid and
      leaves the checked-out count alone. */
  lemma PassKeepsValid(p: Pool, s: Snapshot)
    requires Valid(p)
    ensures var o := Pass(p, s);
            o.Returned? && Valid(o.pool) && Outstanding(o.pool) == Outstanding(p)
  {
    var drained := Queue(p);
    var r := Classify(drained, Verdict(s));
    var empty := p.channel.value.(items := []);
    assert PushAll(empty, r.actives) == Success(empty.(items := r.actives)) by {
      assert [] + r.actives == r.actives;
    }
    ClassifyMembers(drained, Verdict(s));
    RequeuedValid(p, r.actives);
  }

  /** A pass partitions the drained records: each is kicked or kept by the
      rule, the kept ones are back in the channel, and count dropped by one per
      kicked record. */
  lemma PassPartitions(p: Pool, s: Snapshot)
    requires Valid(p)
    ensures var o := Pass(p, s);
            var r := o.value;
            && o.Returned?
            && multiset(r.kicks) + multiset(r.actives) == multiset(Queue(p))
            && (forall i | 0 <= i < |r.kicks| :: ShouldKick(r.kicks[i], s))
            && (forall i | 0 <= i < |r.actives| :: !ShouldKick(r.actives[i], s))
            && Queue(o.pool) == r.actives
            && o.pool.count == p.count - |r.kicks|
  {
    PassKeepsValid(p, s);
    var o := Pass(p, s);
    var r := Classify(Queue(p), Verdict(s));
    assert o.value == r;
    ClassifyPermutes(Queue(p), Verdict(s));
    forall i | 0 <= i < |r.kicks| ensures ShouldKick(r.kicks[i], s) {
      assert Verdict(s)(r.kicks[i]);
    }
    forall i | 0 <= i < |r.actives| ensures !ShouldKick(r.actives[i], s) {
      assert !Verdict(s)(r.actives[i]);
    }
  }

  /** After a pass, no kicked record's key remains in the pools map. */
  lemma PassForgetsKicked(p: Pool, s: Snapshot)
    requires Valid(p)
    ensures var o := Pass(p, s);
            forall i | 0 <= i < |o.value.kicks| :: o.value.kicks[i].hash !in o.pool.pools
  {
    PassKeepsValid(p, s);
    var r := Classify(Queue(p), Verdict(s));
    KickedKeysGone(Mark(p.pools, Queue(p), Verdict(s)), r.kicks);
  }

  /** After a pass, a key carried only by kept records keeps its entry, with
      kick = false and every other key as before. */
  lemma PassFlagsKept(p: Pool, s: Snapshot)
    requires Valid(p)
    ensures var o := Pass(p, s);
            var r := o.value;
            forall i | 0 <= i < |r.actives| && r.actives[i].hash !in KeysOf(r.kicks) ::
              && r.actives[i].hash in o.pool.pools
              && o.pool.pools[r.actives[i].hash] == Lookup(p.pools, r.actives[i].hash).(kick := Some(false))
  {
    PassKeepsValid(p, s);
    var o := Pass(p, s);
    var m := Mark(p.pools, Queue(p), Verdict(s)) - KeysOf(o.value.kicks);
    assert o.value == Classify(Queue(p), Verdict(s)) && o.pool.pools == m;
    KeptKeysFlagged(p.pools, Queue(p), Verdict(s));
  }

  /** A pass leaves the entries of keys no drained record carries alone. */
  lemma PassLeavesOthers(p: Pool, s: Snapshot)
    requires Valid(p)
    ensures var o := Pass(p, s);
            forall h | h in p.pools && h !in KeysOf(Queue(p)) :: h in o.pool.pools && o.pool.pools[h] == p.pools[h]
  {
    PassKeepsValid(p, s);
    UndrainedKeysUntouched(p.pools, Queue(p), Verdict(s));
  }

  /** One whole sweep: the pass, then init to refill to the floor. */
  function Sweep(p: Pool, rows: seq<ProcessRow>, now: int, crc32: string -> int, builds: seq<Construction>): (o: InitOutcome)
    ensures p.channel.None? ==> o == Raised(p, NoChannel)
    ensures o.pool.minSize == p.minSize && o.pool.maxSize == p.maxSize
    ensures o.Filled? ==> o.pool.count >= p.minSize
    ensures Valid(p) ==> Valid(o.pool) && Outstanding(o.pool) == Outstanding(p)
    ensures Valid(p) && p.minSize <= p.maxSize && p.count <= p.maxSize ==> o.pool.count <= p.maxSize
  {
    var snap := Snapshot(SessionTable(rows), now, crc32);
    var passed := Pass(p, snap);
    assert Valid(p) ==> passed.Returned? && Valid(passed.pool) && Outstanding(passed.pool) == Outstanding(p) by {
      if Valid(p) { PassKeepsValid(p, snap); }
    }
    assert passed.Returned? ==> passed.pool.count <= p.count;
    if passed.Threw? then Raised(passed.pool, passed.error)
    else ConnectionPool.Init(passed.pool, builds, crc32)
  }

  /** The sweep evicts before it refills: the records the rule keeps lead the
      final channel, in drain order, and count fell once per kicked record
      before init added one per record it appended. */
  lemma SweepEvicts(p: Pool, rows: seq<ProcessRow>, now: int, crc32: string -> int, builds: seq<Construction>)
    requires Valid(p)
    ensures var o := Sweep(p, rows, now, crc32, builds);
            var r := Classify(Queue(p), Verdict(Snapshot(SessionTable(rows), now, crc32)));
            && r.actives <= Queue(o.pool)
            && o.pool.count == p.count - |r.kicks| + (|Queue(o.pool)| - |r.actives|)
  {
    PassKeepsValid(p, Snapshot(SessionTable(rows), now, crc32));
  }

  /** No two process-list rows share an Id. */
  predicate UniqueIds(rows: seq<ProcessRow>) {
    forall i, j | 0 <= i < j < |rows| :: rows[i].id != rows[j].id
  }

  /** With duplicate-free Ids, the first-match lookup of make and the
      last-wins table of the sweep find the same host for a listed session. */
  lemma {:induction false} LookupsAgree(rows: seq<ProcessRow>, threadId: int, crc32: string -> int)
    requires UniqueIds(rows) && threadId in SessionTable(rows)
    ensures Provider.GetThreadInfo(rows, threadId, crc32) == Some(Provider.EndpointOf(SessionTable(rows)[threadId], crc32))
  {
    var k :| 0 <= k < |rows| && rows[k].id == threadId;
    assert forall j | 0 <= j < |rows| && j != k :: rows[j].id != threadId;
    SessionTableLastWins(rows, k);
  }

  /** A record made while the process list showed its session, swept against
      the same (duplicate-free) process list, passes both session checks. */
  lemma MadeRecordSessionAlive(p: Pool, build: Construction, crc32: string -> int, now: int)
    requires build.Built? && UniqueIds(build.processlist)
    requires build.threadId in SessionTable(build.processlist)
    requires !IsEmpty(SessionTable(build.processlist)[build.threadId])
    ensures var x := Provider.Make(p, build, crc32).value;
            SessionAlive(x, Snapshot(SessionTable(build.processlist), now, crc32))
  {
    LookupsAgree(build.processlist, build.threadId, crc32);
  }

  /** Such a record, made at a positive time and swept within 600 seconds
      without having been used, is kept. */
  lemma FreshRecordKept(p: Pool, build: Construction, crc32: string -> int, now: int)
    requires build.Built? && UniqueIds(build.processlist)
    requires build.threadId in SessionTable(build.processlist)
    requires !IsEmpty(SessionTable(build.processlist)[build.threadId])
    requires 0 < build.madeAt && now - build.madeAt <= UNUSED_IDLE_LIMIT
    ensures var x := Provider.Make(p, build, crc32).value;
            !ShouldKick(x, Snapshot(SessionTable(build.processlist), now, crc32))
  {
    MadeRecordSessionAlive(p, build, crc32, now);
  }
}

=== FILE: wrappers.dfy ===
/** Option stands for a PHP value that may be null or a key that may be absent;
    Result for an operation that either returns or raises. */
module Wrappers {

  datatype Option<+T> = None | Some(value: T) {

    /** The value, or `default` when absent (PHP's `??`). */
    function GetOr(default: T): T {
      match this
      case Some(v) => v
      case None => default
    }
  }

  datatype Result<+T, +E> = Success(value: T) | Failure(error: E)
}
